=== FILE: README.md ===
# OTC signal bot: decision logic in Dafny

This project models the decision logic of a Telegram bot that watches thirty
OTC instruments, pulls one-minute bars from a Quotex client, predicts the
next bar's direction and then scores the trade. The bot exists in two
variants, and both are modelled:

- **main bot** (`telegram_otc_bot.py`). `score_pair` uses a four-bar
  reversal rule with a weighted-momentum fallback. `analyze_single_pair`
  adds a mean-range volatility filter. `check_trade_result` picks the bar to
  judge by timestamp. `evaluate_signal_result` runs an initial phase and at
  most one martingale phase. It keeps a win/loss tally, a stake and an
  in-sequence flag. `init_quotex` retries a failed connection with back-off.
- **fixed bot** (`telegram_otc_bot_fixed.py`). `analyze_reversal` is the pure
  reversal detector. `evaluate_result` is a two-candle evaluator with a
  separate ERROR outcome. `run` is a sequential scan over `OTC_PAIRS`.

Everything around this logic is I/O. Here it becomes input:

- each fetch is an `Option<seq<RawBar>>`. `None` means there was no client,
  the call raised, or it returned nothing.
- each entry timestamp that `time.time()` would give is an `int` parameter.
- each `connect()` result is an element of a `seq<ConnectOutcome>`.
- sleeps and notifications are not performed. They are recorded in traces.

Prices are exact `real`s. The module layout is:

- `Wrappers`: `Option`.
- `Candles` (`candles.dfy`): raw bars, candles, directions, and the fetch
  conversion that both variants share.
- `Detection` (`detection.dfy`): both detectors and the volatility filter.
- `Evaluation` (`evaluation.dfy`): the trade check, the martingale state
  machine and the fixed evaluator.
- `Connection` (`connection.dfy`): the start-up retry loop.
- `Scan` (`scan.dfy`): one cycle of the fixed bot.

Quirks kept as written:

- With one to three bars fetched, `score_pair` answers direction "NONE"
  (`Direction.NoDirection`), and the volatility filter can still let it
  through. `check_trade_result` then judges any direction other than CALL
  as a PUT.
- The fixed bot's win rule knows only CALL and PUT.
- In the fixed bot's `run`, a pair without data is skipped by `continue`,
  which also skips the one-second pause.
- A slice limit of zero keeps every raw bar (`raw[-0:]`). No caller passes
  zero.

## Model

| member | source | states |
|---|---|---|
| `Candles.Classify` | telegram_otc_bot.py:182-188 | a candle is CALL iff close > open, PUT iff close < open, NEUTRAL iff they are equal; never NONE |
| `Candles.Truncate` | telegram_otc_bot.py:163 | `int()` on the time value truncates toward zero: the result is within one of the input, on the zero side |
| `Candles.ToCandle` | telegram_otc_bot.py:158-164 | a raw bar converts iff no field is junk; a missing key reads as 0; present open, high, low and close values are taken unchanged |
| `Candles.ToCandleTimestamp` | telegram_otc_bot.py:163 | a present time value becomes the timestamp truncated toward zero |
| `Candles.ConvertAll` | telegram_otc_bot.py:156-164 | the converted list has one candle per raw bar, in order, and exists iff every bar converts (one bad bar makes the fetch fail) |
| `Candles.SuffixStart` | telegram_otc_bot.py:157 | the Python slice `raw[-limit:]` keeps the last `min(limit, len)` bars for a positive limit, all bars for limit 0 |
| `Candles.ConvertWindow` | telegram_otc_bot.py:152-166 | an empty or missing fetch gives None; otherwise the result exists iff the kept bars convert; for a positive limit it has `min(limit, len)` candles; with k the number of candles kept, candle i is the conversion of raw bar `len - k + i` |
| `Candles.ZeroLimitKeepsEveryBar` | telegram_otc_bot.py:157 | with limit 0 every raw bar is kept |
| `Candles.GetCandlesRoundTrip` | telegram_otc_bot_fixed.py:93-106 | converting the raw bars of a candle list gives back exactly its last `min(count, len)` candles, in order |
| `Detection.RangeSumNonNegative` | telegram_otc_bot.py:200 | the sum of bar ranges is non-negative when every high is at least its low |
| `Detection.ScorePair` | telegram_otc_bot.py:172-204 | fewer than 4 candles give `(0.0, NONE, 0.0)`; a uniform non-neutral window gives score 100 and the opposite direction; otherwise direction is CALL iff the 0.6/0.4 momentum is positive and the score is `abs(momentum) * mean range`; the price is the last close |
| `Detection.AllRisingPredictsPut` | telegram_otc_bot.py:190-195 | a window of at least 4 strictly rising candles yields `(100, PUT, last close)` |
| `Detection.AllFallingPredictsCall` | telegram_otc_bot.py:190-195 | a window of at least 4 strictly falling candles yields `(100, CALL, last close)` |
| `Detection.ScoreNonNegative` | telegram_otc_bot.py:197-202 | the score is never negative for well-formed bars; zero momentum gives score 0 and direction PUT |
| `Detection.AnalyzeSinglePair` | telegram_otc_bot.py:206-222 | no candles give None; otherwise None iff the mean range is below the threshold, and a result carries the scorer's direction, score and price unchanged |
| `Detection.FlatWindowIsFiltered` | telegram_otc_bot.py:93 | at the bot's threshold 0.00001, a fetch whose bars all have high equal to low never yields a signal |
| `Detection.ShortWindowPassesNoDirection` | telegram_otc_bot.py:211-222 | one to three volatile enough bars produce a signal with direction NONE, score 0 and price 0 |
| `Detection.FullWindowSignalIsTradable` | telegram_otc_bot.py:211-222 | from four or more fetched bars, any signal is CALL or PUT at the close of the newest raw bar |
| `Detection.AnalyzeReversal` | telegram_otc_bot_fixed.py:112-131 | None for fewer than 4 candles; a reversal iff all candles share one non-neutral direction; its direction is CALL or PUT and differs from the last candle's, its price is the last close |
| `Detection.DetectorsAgreeOnReversal` | telegram_otc_bot_fixed.py:127-129 | whenever the fixed detector reports `(d, p)`, the main scorer returns `(100, d, p)` on the same window |
| `Detection.MixedWindowHasNoReversal` | telegram_otc_bot_fixed.py:126-131 | a neutral candle, or two candles with different directions, rule out a reversal |
| `Detection.RisingWindowExample` | telegram_otc_bot_fixed.py:112-131 | four rising bars 1.1, 1.2, 1.3, 1.4 give PUT at 1.4 |
| `Evaluation.FirstMatch` | telegram_otc_bot.py:307-312 | finds the first candle whose timestamp is within 60 s of the entry, and reports none only when no candle is |
| `Evaluation.TradeCandleChoice` | telegram_otc_bot.py:307-315 | the judged candle is the first within 60 s of the entry, or the last candle when none is |
| `Evaluation.CheckTradeResult` | telegram_otc_bot.py:297-328 | a failed fetch is a LOSS; CALL wins iff the chosen candle rose; any other direction wins iff it fell; an unchanged candle always loses |
| `Evaluation.RunPhases` | telegram_otc_bot.py:230-288 | WIN iff the first phase wins, MTG WIN iff it loses and the second wins, else LOSS; exactly one counter grows, wins for both kinds of win; stake back at base and flag cleared on exit |
| `Evaluation.EvaluationTrace` | telegram_otc_bot.py:241-273 | one trade check after an initial win and two otherwise; the MTG notice is sent iff the first phase lost, at `base * factor`; every check runs in-sequence after a 65 s wait; the trace has 3 events after an initial win and 6 otherwise; the second event is the initial-phase check of `entry1` at the base stake recording the first outcome, and after a loss the fifth is the martingale-phase check of `entry2` at `base * factor` recording the second outcome |
| `Evaluation.EvaluateSignalResult` | telegram_otc_bot.py:224-288 | the sequence result follows the two `check_trade_result` outcomes as above; the tally grows by exactly one; stake and flag are reset |
| `Evaluation.InitialWinExample` | telegram_otc_bot.py:247-253 | CALL on a bar from 1.40 to 1.45 is an initial WIN: wins + 1, stake 1.0, one check only |
| `Evaluation.MartingaleWinExample` | telegram_otc_bot.py:254-279 | PUT losing on a rising bar announces MTG at stake 2.0; a falling second bar gives MTG WIN, wins + 1 |
| `Evaluation.DoubleLossExample` | telegram_otc_bot.py:280-288 | two failed fetches give LOSS, losses + 1, stake back at 1.0 |
| `Evaluation.FreshBotFirstSequence` | telegram_otc_bot.py:94-101 | from the start-up state (no wins, no losses, stake 1.0, out of sequence) the first sequence leaves one win or one loss, stake 1.0, out of sequence |
| `Evaluation.WinRulesAgreeOnTradableDirections` | telegram_otc_bot_fixed.py:176-177 | the two variants' win rules agree on CALL and PUT; for any other direction the fixed rule never wins while the main rule wins on a fall |
| `Evaluation.FetchedBar` | telegram_otc_bot_fixed.py:171-175 | a one-bar fetch yields the conversion of the newest raw bar, and nothing for an empty or failed fetch |
| `Evaluation.EvaluateResult` | telegram_otc_bot_fixed.py:166-193 | ERROR iff the first fetch is empty, and then no second wait or fetch happens; WIN iff the first bar wins; MG WIN iff the first bar does not win and a second bar wins; two waits and fetches unless ERROR or WIN |
| `Evaluation.SecondBarDecides` | telegram_otc_bot_fixed.py:184-193 | after a non-winning first bar, an empty second fetch or an unchanged second bar is a LOSS |
| `Connection.InitQuotex` | telegram_otc_bot.py:109-133 | at most 3 attempts; connected iff one of the first three succeeds; stops at the first success; sleeps only between attempts, 5 s then 10 s, none after the last |
| `Scan.ScanPair` | telegram_otc_bot_fixed.py:204-229 | a pair without candles is skipped with no evaluation and no pause; it is traded iff its window shows a reversal, and its status is the evaluator's for that direction |
| `Scan.ScanPairProjections` | telegram_otc_bot_fixed.py:207-229 | one pair's events fetch it once; they send one signal, carrying the reversal's direction and price, and evaluate the pair once if it traded, and send no signal and evaluate nothing otherwise |
| `Scan.ScanPairSignalsThenEvaluates` | telegram_otc_bot_fixed.py:213-221 | a traded pair's second event sends the reversal's signal and its third runs the evaluator on that direction with the pair's two evaluation fetches |
| `Scan.RunCycle` | telegram_otc_bot_fixed.py:204-232 | one report per pair, in list order, each the pair's own scan; the cycle ends with the 5 s pause |
| `Scan.SegmentsVisitInOrder` | telegram_otc_bot_fixed.py:204-229 | the pair loop fetches the pairs in list order and evaluates exactly the traded pairs, in list order |
| `Scan.SegmentsSignalInOrder` | telegram_otc_bot_fixed.py:204-229 | the pair loop sends exactly the traded pairs' signals, each with its reversal's direction and price, in list order |
| `Scan.CyclePairByPair` | telegram_otc_bot_fixed.py:204-232 | for every pair index i, the cycle's trace is the scans of the pairs before i, then pair i's whole scan (fetch, signal, evaluation, result, pause), then the scans of the later pairs, then the 5 s pause; the earlier and later scans fetch exactly the earlier and later pairs |
| `Scan.CycleVisitsEveryPairOnce` | telegram_otc_bot_fixed.py:204-232 | a cycle visits every pair exactly once in order, sends exactly the traded pairs' signals and evaluates each traded pair exactly once, in order, and finishes each pair's evaluation before the next pair is fetched |
| `Scan.TradedPairsShowReversals` | telegram_otc_bot_fixed.py:212-221 | every evaluated pair is one whose window showed a reversal |
| `Scan.ScanOtcPairs` | telegram_otc_bot_fixed.py:36-43 | a cycle over `OTC_PAIRS` reports on all 30 instruments and visits them in list order |

## Left out

- Telegram delivery (`send_telegram`, `send_message`, `test_telegram`), the `signals.log` writes and console output are external I/O. The fixed bot's `send_message` always returns True, so its signals are always evaluated.
- The Quotex client (`connect`, `get_candles`, `check_connect`, `close`) is foreign code. Fetch results and connect outcomes are inputs instead. A raw value that `float()`/`int()` rejects is modelled as `Junk`. Values such as NaN or infinity are not modelled.
- `reconnect_if_needed` and the fixed bot's one-shot `init_quotex` are not part of this model. Only the main bot's retry loop is modelled.
- The main bot's `run` loop is not part of this model. Only the fixed bot's cycle is modelled. The main bot's per-pair steps (`analyze_single_pair`, `evaluate_signal_result`) are modelled on their own.
- `asyncio.sleep`, `time.time()` and `datetime.now()` are not modelled. Waits are recorded as trace events, and entry timestamps are parameters.
- Message formatting (`format_message`, `format_mtg_message`, `format_result_message`, `format_signal`) is emoji and clock text. The result notice records only the tally it reports.
- `get_next_candle_time`, `get_signal_send_time`, logging set-up, `load_dotenv` and `main` are clock- or process-level code that the decision logic does not use.
- Floating point is not modelled. Prices are exact reals, so IEEE rounding of the 0.6/0.4 weights and of the mean range is not represented.
- The perpetual `while True` loops and their exception-recovery pauses are left out. A single cycle is modelled.
- `Connection.InitQuotex`: if fewer than three connect outcomes are supplied, a missing attempt counts as one whose call raised.

=== FILE: candles.dfy ===
/** Optional values, for fetches that return nothing and detectors that find nothing. */
module Wrappers {

  datatype Option<+T> = None | Some(value: T)
}

/**
  One-minute price bars: the raw dictionaries the market-data client returns,
  the typed candles both bot variants work on, and the conversion between them
  (`get_candles_for_pair` in the main bot, `get_candles` in the fixed bot; the
  two share the same conversion code).
 */
module Candles {
  import opened Wrappers

  /** One value of a raw bar dictionary: the key is missing, it holds a number,
      or it holds something `float()` / `int()` rejects. */
  datatype Field = Absent | Num(v: real) | Junk

  /** A raw bar as delivered by the client, keyed `open`, `high`, `low`, `close`, `time`. */
  datatype RawBar = RawBar(open: Field, high: Field, low: Field, close: Field, time: Field)

  /** The typed candle (`CandleData`): prices are exact reals, the timestamp whole seconds. */
  datatype Candle = Candle(open: real, high: real, low: real, close: real, timestamp: int)

  /** A trade direction. `NoDirection` is the "NONE" string the main bot's scorer
      returns for short windows; `Neutral` is a candle whose close equals its open. */
  datatype Direction = Call | Put | Neutral | NoDirection

  /** The direction a single candle moved in. */
  function Classify(c: Candle): (d: Direction)
    ensures d == Call <==> c.close > c.open
    ensures d == Put <==> c.close < c.open
    ensures d == Neutral <==> c.close == c.open
    ensures d != NoDirection
  {
    if c.close > c.open then Call
    else if c.close < c.open then Put
    else Neutral
  }

  /** Python's `int()` on a float: truncation toward zero. */
  function Truncate(x: real): (n: int)
    ensures 0.0 <= x ==> n as real <= x < n as real + 1.0
    ensures x < 0.0 ==> n as real - 1.0 < x <= n as real
  {
    if 0.0 <= x then x.Floor else -((-x).Floor)
  }

  /** `float(bar.get(key, 0))`: a missing key reads as zero, junk raises. */
  function FloatOf(f: Field): Option<real>
  {
    match f
    case Absent => Some(0.0)
    case Num(v) => Some(v)
    case Junk => None
  }

  /** `int(bar.get('time', 0))`. */
  function IntOf(f: Field): Option<int>
  {
    match f
    case Absent => Some(0)
    case Num(v) => Some(Truncate(v))
    case Junk => None
  }

  predicate Convertible(r: RawBar)
  {
    !r.open.Junk? && !r.high.Junk? && !r.low.Junk? && !r.close.Junk? && !r.time.Junk?
  }

  /** Builds one `CandleData` from a raw bar, or fails when a field cannot be converted. */
  function ToCandle(r: RawBar): (c: Option<Candle>)
    ensures c.Some? <==> Convertible(r)
    ensures c.Some? && r.open.Absent? ==> c.value.open == 0.0
    ensures c.Some? && r.high.Absent? ==> c.value.high == 0.0
    ensures c.Some? && r.low.Absent? ==> c.value.low == 0.0
    ensures c.Some? && r.close.Absent? ==> c.value.close == 0.0
    ensures c.Some? && r.time.Absent? ==> c.value.timestamp == 0
    ensures c.Some? && r.open.Num? ==> c.value.open == r.open.v
    ensures c.Some? && r.high.Num? ==> c.value.high == r.high.v
    ensures c.Some? && r.low.Num? ==> c.value.low == r.low.v
    ensures c.Some? && r.close.Num? ==> c.value.close == r.close.v
  {
    match (FloatOf(r.open), FloatOf(r.high), FloatOf(r.low), FloatOf(r.close), IntOf(r.time))
    case (Some(o), Some(h), Some(l), Some(cl), Some(t)) => Some(Candle(o, h, l, cl, t))
    case _ => None
  }

  /** A present time value becomes the candle's timestamp truncated toward zero. */
  lemma ToCandleTimestamp(r: RawBar)
    requires Convertible(r) && r.time.Num?
    ensures ToCandle(r).Some? && ToCandle(r).value.timestamp == Truncate(r.time.v)
  {
  }

  /** Converts every bar in order; one unconvertible bar makes the whole conversion fail
      (the exception is caught by the fetch routine, which then returns None). */
  function ConvertAll(raws: seq<RawBar>): (r: Option<seq<Candle>>)
    ensures r.Some? <==> forall i :: 0 <= i < |raws| ==> Convertible(raws[i])
    ensures r.Some? ==> |r.value| == |raws|
    ensures r.Some? ==> forall i :: 0 <= i < |raws| ==> ToCandle(raws[i]) == Some(r.value[i])
  {
    if |raws| == 0 then Some([])
    else
      match (ToCandle(raws[0]), ConvertAll(raws[1..]))
      case (Some(c), Some(cs)) => Some([c] + cs)
      case _ => None
  }

  function Min(a: int, b: int): int
  {
    if a <= b then a else b
  }

  /** The start index of the Python slice `xs[-limit:]` on a list of length `n`. */
  function SuffixStart(n: nat, limit: int): (k: nat)
    ensures k <= n
    ensures limit > 0 ==> n - k == Min(limit, n)
    ensures limit == 0 ==> k == 0
    ensures limit < 0 ==> k == Min(-limit, n)
  {
    var start := -limit;
    if start < 0 then (if n + start < 0 then 0 else n + start)
    else if start < n then start else n
  }

  /**
    The conversion part of the fetch routines: `fetched` is what the client
    returned (None when there is no client, the call raised, or it returned
    None). An empty or missing list gives None; otherwise the last `limit`
    raw bars, in their original order, are converted.
   */
  function ConvertWindow(fetched: Option<seq<RawBar>>, limit: int): (r: Option<seq<Candle>>)
    ensures fetched.None? ==> r.None?
    ensures fetched == Some([]) ==> r.None?
    ensures r.Some? <==>
      fetched.Some? && |fetched.value| > 0 &&
      forall i :: SuffixStart(|fetched.value|, limit) <= i < |fetched.value| ==> Convertible(fetched.value[i])
    ensures r.Some? && limit > 0 ==> 1 <= |r.value| == Min(limit, |fetched.value|)
    ensures r.Some? ==> |r.value| <= |fetched.value|
    ensures r.Some? ==>
              forall i :: 0 <= i < |r.value| ==>
                ToCandle(fetched.value[|fetched.value| - |r.value| + i]) == Some(r.value[i])
  {
    match fetched
    case None => None
    case Some(raw) =>
      if |raw| == 0 then None
      else
        var k := SuffixStart(|raw|, limit);
        var cs := ConvertAll(raw[k..]);
        ConvertSuffix(raw, k, cs);
        cs
  }

  /** Converting the bars from index `k` on, restated against the whole list. */
  lemma ConvertSuffix(raw: seq<RawBar>, k: nat, r: Option<seq<Candle>>)
    requires k <= |raw| && r == ConvertAll(raw[k..])
    ensures r.Some? <==> forall i :: k <= i < |raw| ==> Convertible(raw[i])
    ensures r.Some? ==> |r.value| == |raw| - k
    ensures r.Some? ==> forall i :: 0 <= i < |r.value| ==> ToCandle(raw[|raw| - |r.value| + i]) == Some(r.value[i])
  {
    var tail := raw[k..];
    assert forall i :: k <= i < |raw| ==> raw[i] == tail[i - k];
    if r.Some? {
      forall i | 0 <= i < |r.value|
        ensures ToCandle(raw[|raw| - |r.value| + i]) == Some(r.value[i])
      {
        assert raw[|raw| - |r.value| + i] == tail[i];
      }
    }
  }

  /** With a limit of zero the slice `raw[-0:]` is `raw[0:]`: every bar is kept. */
  lemma ZeroLimitKeepsEveryBar(raw: seq<RawBar>)
    requires |raw| > 0
    requires forall i :: 0 <= i < |raw| ==> Convertible(raw[i])
    ensures ConvertWindow(Some(raw), 0).Some?
    ensures |ConvertWindow(Some(raw), 0).value| == |raw|
  {
  }

  /** The raw bar a client would deliver for a candle, every key present. */
  function ToRaw(c: Candle): RawBar
  {
    RawBar(Num(c.open), Num(c.high), Num(c.low), Num(c.close), Num(c.timestamp as real))
  }

  /** Fetching bars the client reports faithfully gives back exactly the last
      `limit` candles, in order, for any positive limit. */
  lemma GetCandlesRoundTrip(cs: seq<Candle>, limit: int)
    requires |cs| > 0 && limit > 0
    ensures ConvertWindow(Some(seq(|cs|, i requires 0 <= i < |cs| => ToRaw(cs[i]))), limit)
            == Some(cs[|cs| - Min(limit, |cs|)..])
  {
    var raw := seq(|cs|, i requires 0 <= i < |cs| => ToRaw(cs[i]));
    forall i | 0 <= i < |raw|
      ensures ToCandle(raw[i]) == Some(cs[i])
    {
      assert Truncate(cs[i].timestamp as real) == cs[i].timestamp;
    }
    var r := ConvertWindow(Some(raw), limit);
    assert r.Some?;
    var k := Min(limit, |cs|);
    assert |r.value| == k;
    forall i | 0 <= i < k
      ensures r.value[i] == cs[|cs| - k..][i]
    {
      assert ToCandle(raw[|raw| - k + i]) == Some(r.value[i]);
    }
    assert r.value == cs[|cs| - k..];
  }
}

=== FILE: connection.dfy ===
/**
  The main bot's connection start-up (`init_quotex`): up to three connect
  attempts with a back-off of 5 s that doubles after each failed attempt.
  The client's answers are an input sequence, one per attempt; the sleeps the
  routine would perform are returned instead of being performed.
 */
module Connection {

  /** What one `connect()` call did: succeeded, reported failure, or raised. */
  datatype ConnectOutcome = Connected | Refused | Raised

  const MaxRetries := 3

  /** Seconds slept after the first failed attempt. */
  const InitialRetryDelay := 5

  /** The outcome of attempt `i`; an attempt for which no outcome is supplied
      counts as one whose connect call raised. */
  function Attempt(outcomes: seq<ConnectOutcome>, i: nat): ConnectOutcome
  {
    if i < |outcomes| then outcomes[i] else Raised
  }

  function Pow2(k: nat): nat
  {
    if k == 0 then 1 else 2 * Pow2(k - 1)
  }

  /** The pause after the `k`-th failed attempt: 5, 10, 20, ... seconds. */
  function Backoff(k: nat): nat
  {
    InitialRetryDelay * Pow2(k)
  }

  /**
    `init_quotex`: tries to connect until an attempt succeeds or three have
    failed. It reports success exactly when one of the first three attempts
    succeeds, stops at the first success, and sleeps only between attempts,
    with delays 5 then 10 seconds and no sleep after the last attempt.
   */
  method InitQuotex(outcomes: seq<ConnectOutcome>) returns (connected: bool, attempts: nat, sleeps: seq<nat>)
    ensures 1 <= attempts <= MaxRetries
    ensures connected <==> exists i :: 0 <= i < MaxRetries && Attempt(outcomes, i) == Connected
    ensures connected ==> Attempt(outcomes, attempts - 1) == Connected
    ensures forall i :: 0 <= i < attempts - 1 ==> Attempt(outcomes, i) != Connected
    ensures !connected ==> attempts == MaxRetries
    ensures |sleeps| == attempts - 1
    ensures forall k :: 0 <= k < |sleeps| ==> sleeps[k] == Backoff(k)
  {
    var retryDelay := InitialRetryDelay;
    sleeps := [];
    var attempt := 0;
    while attempt < MaxRetries
      invariant 0 <= attempt <= MaxRetries
      invariant forall i :: 0 <= i < attempt ==> Attempt(outcomes, i) != Connected
      invariant |sleeps| == (if attempt < MaxRetries then attempt else MaxRetries - 1)
      invariant forall k :: 0 <= k < |sleeps| ==> sleeps[k] == Backoff(k)
      invariant retryDelay == Backoff(|sleeps|)
    {
      if Attempt(outcomes, attempt) == Connected {
        return true, attempt + 1, sleeps;
      }
      if attempt < MaxRetries - 1 {
        sleeps := sleeps + [retryDelay];
        retryDelay := retryDelay * 2;
      }
      attempt := attempt + 1;
    }
    return false, MaxRetries, sleeps;
  }
}

=== FILE: detection.dfy ===
/**
  Signal detection. The main bot scores a window with a reversal rule and a
  weighted-momentum fallback (`score_pair`) and filters it by mean bar range
  (`analyze_single_pair`); the fixed bot uses the reversal rule alone
  (`analyze_reversal`).
 */
module Detection {
  import opened Wrappers
  import opened Candles

  /** Number of bars both bots fetch for a detection window. */
  const WindowSize := 4

  /** Sentinel score the main bot attaches to a reversal signal. */
  const ReversalScore := 100.0

  /** `min_volatility_threshold` of the main bot. */
  const MinVolatilityThreshold := 0.00001

  /** The main bot's scorer output `(direction_score, direction, last_price)`. */
  datatype Score = Score(score: real, direction: Direction, price: real)

  /** A signal that passed `analyze_single_pair`: `(pair, direction, score, price)`. */
  datatype Signal = Signal(pair: string, direction: Direction, score: real, price: real)

  /** A reversal found by the fixed bot: `(direction, price)`. */
  datatype Reversal = Reversal(direction: Direction, price: real)

  /** The reversal of a trend direction: `"PUT" if d == "CALL" else "CALL"`. */
  function Opposite(d: Direction): Direction
  {
    if d == Call then Put else Call
  }

  function Abs(x: real): real
  {
    if x < 0.0 then -x else x
  }

  /** Every candle moved in the same direction as the first (`len(set(directions)) == 1`). */
  predicate Uniform(cs: seq<Candle>)
    requires |cs| > 0
  {
    forall i :: 0 <= i < |cs| ==> Classify(cs[i]) == Classify(cs[0])
  }

  /** The reversal pattern both bots look for: a long enough window whose
      candles all rose, or all fell. */
  predicate ReversalPattern(cs: seq<Candle>)
  {
    |cs| >= WindowSize && Uniform(cs) && Classify(cs[0]) != Neutral
  }

  function Last(cs: seq<Candle>): Candle
    requires |cs| > 0
  {
    cs[|cs| - 1]
  }

  function Change(c: Candle): real
  {
    c.close - c.open
  }

  /** Weighted momentum of the last two candles. */
  function Momentum(cs: seq<Candle>): real
    requires |cs| >= 2
  {
    0.6 * Change(cs[|cs| - 1]) + 0.4 * Change(cs[|cs| - 2])
  }

  /** Sum of `high - low` over the window. */
  function RangeSum(cs: seq<Candle>): real
  {
    if |cs| == 0 then 0.0 else RangeSum(cs[..|cs| - 1]) + (Last(cs).high - Last(cs).low)
  }

  /** Mean bar range of the window. */
  function Volatility(cs: seq<Candle>): real
    requires |cs| > 0
  {
    RangeSum(cs) / |cs| as real
  }

  /** The data source's promise that no bar's high lies below its low. */
  predicate RangesWellFormed(cs: seq<Candle>)
  {
    forall i :: 0 <= i < |cs| ==> cs[i].low <= cs[i].high
  }

  lemma {:induction false} RangeSumNonNegative(cs: seq<Candle>)
    requires RangesWellFormed(cs)
    ensures RangeSum(cs) >= 0.0
  {
    if |cs| > 0 {
      RangeSumNonNegative(cs[..|cs| - 1]);
    }
  }

  /** `score_pair` of the main bot. */
  function ScorePair(cs: seq<Candle>): (r: Score)
    ensures |cs| < WindowSize ==> r == Score(0.0, NoDirection, 0.0)
    ensures |cs| >= WindowSize ==> r.price == Last(cs).close && r.direction in {Call, Put}
    ensures ReversalPattern(cs) ==>
              r.score == ReversalScore && r.direction == Opposite(Classify(cs[0]))
    ensures |cs| >= WindowSize && !ReversalPattern(cs) ==>
              && (r.direction == Call <==> Momentum(cs) > 0.0)
              && r.score == Abs(Momentum(cs)) * Volatility(cs)
  {
    if |cs| < WindowSize then Score(0.0, NoDirection, 0.0)
    else if Uniform(cs) && Classify(cs[0]) != Neutral then
      Score(ReversalScore, Opposite(Classify(cs[0])), Last(cs).close)
    else
      var momentum := Momentum(cs);
      Score(Abs(momentum) * Volatility(cs), if momentum > 0.0 then Call else Put, Last(cs).close)
  }

  /** A window of strictly rising candles predicts PUT at the last close, with score 100. */
  lemma AllRisingPredictsPut(cs: seq<Candle>)
    requires |cs| >= WindowSize
    requires forall i :: 0 <= i < |cs| ==> cs[i].close > cs[i].open
    ensures ScorePair(cs) == Score(ReversalScore, Put, Last(cs).close)
  {
  }

  /** A window of strictly falling candles predicts CALL at the last close, with score 100. */
  lemma AllFallingPredictsCall(cs: seq<Candle>)
    requires |cs| >= WindowSize
    requires forall i :: 0 <= i < |cs| ==> cs[i].close < cs[i].open
    ensures ScorePair(cs) == Score(ReversalScore, Call, Last(cs).close)
  {
  }

  /** The scorer's score is never negative when every bar's high is at least its low;
      on the momentum branch it is zero when the momentum is zero, and zero momentum
      yields PUT. */
  lemma ScoreNonNegative(cs: seq<Candle>)
    requires RangesWellFormed(cs)
    ensures ScorePair(cs).score >= 0.0
    ensures |cs| >= WindowSize && !ReversalPattern(cs) && Momentum(cs) == 0.0 ==>
              ScorePair(cs).score == 0.0 && ScorePair(cs).direction == Put
  {
    if |cs| >= WindowSize && !ReversalPattern(cs) {
      RangeSumNonNegative(cs);
      var v := Volatility(cs);
      assert v >= 0.0;
      assert Abs(Momentum(cs)) * v >= 0.0;
    }
  }

  /**
    `analyze_single_pair` of the main bot, after the fetch of four bars:
    nothing when no candles were fetched or when the mean bar range is below
    `threshold`; otherwise the scorer's triple, unchanged, tagged with the pair.
   */
  function AnalyzeSinglePair(pair: string, fetched: Option<seq<RawBar>>, threshold: real): (r: Option<Signal>)
    ensures ConvertWindow(fetched, WindowSize).None? ==> r.None?
    ensures ConvertWindow(fetched, WindowSize).Some? ==>
              var cs := ConvertWindow(fetched, WindowSize).value;
              && (r.None? <==> Volatility(cs) < threshold)
              && (r.Some? ==> r.value == Signal(pair, ScorePair(cs).direction, ScorePair(cs).score, ScorePair(cs).price))
  {
    match ConvertWindow(fetched, WindowSize)
    case None => None
    case Some(cs) =>
      if |cs| == 0 then None
      else
        var s := ScorePair(cs);
        if Volatility(cs) < threshold then None
        else Some(Signal(pair, s.direction, s.score, s.price))
  }

  lemma {:induction false} FlatRangeSumIsZero(cs: seq<Candle>)
    requires forall i :: 0 <= i < |cs| ==> cs[i].high == cs[i].low
    ensures RangeSum(cs) == 0.0
  {
    if |cs| > 0 {
      FlatRangeSumIsZero(cs[..|cs| - 1]);
    }
  }

  lemma FlatBarStaysFlat(r: RawBar, c: Candle)
    requires r.high == r.low && ToCandle(r) == Some(c)
    ensures c.high == c.low
  {
  }

  lemma FlatWindowHasNoVolatility(cs: seq<Candle>)
    requires |cs| > 0
    requires forall i :: 0 <= i < |cs| ==> cs[i].high == cs[i].low
    ensures Volatility(cs) == 0.0
  {
    FlatRangeSumIsZero(cs);
    assert Volatility(cs) == 0.0 / |cs| as real;
  }

  lemma FlatFetchConvertsFlat(raw: seq<RawBar>, limit: int)
    requires forall i :: 0 <= i < |raw| ==> raw[i].high == raw[i].low
    requires ConvertWindow(Some(raw), limit).Some?
    ensures forall i :: 0 <= i < |ConvertWindow(Some(raw), limit).value| ==>
              ConvertWindow(Some(raw), limit).value[i].high == ConvertWindow(Some(raw), limit).value[i].low
  {
    var cs := ConvertWindow(Some(raw), limit).value;
    forall i | 0 <= i < |cs|
      ensures cs[i].high == cs[i].low
    {
      FlatBarStaysFlat(raw[|raw| - |cs| + i], cs[i]);
    }
  }

  /** At the bot's threshold of 0.00001, a window whose bars never moved
      (every high equals its low) is filtered out, whatever its length. */
  lemma FlatWindowIsFiltered(pair: string, raw: seq<RawBar>)
    requires forall i :: 0 <= i < |raw| ==> raw[i].high == raw[i].low
    ensures AnalyzeSinglePair(pair, Some(raw), MinVolatilityThreshold).None?
  {
    var w := ConvertWindow(Some(raw), WindowSize);
    if w.Some? {
      FlatFetchConvertsFlat(raw, WindowSize);
      FlatWindowHasNoVolatility(w.value);
    }
  }

  /** With one to three bars fetched the scorer answers "NONE", and that direction
      still leaves the analysis when the bars are volatile enough. */
  lemma ShortWindowPassesNoDirection(pair: string, raw: seq<RawBar>, threshold: real)
    requires 1 <= |raw| < WindowSize
    requires forall i :: 0 <= i < |raw| ==> Convertible(raw[i])
    requires Volatility(ConvertWindow(Some(raw), WindowSize).value) >= threshold
    ensures AnalyzeSinglePair(pair, Some(raw), threshold) == Some(Signal(pair, NoDirection, 0.0, 0.0))
  {
  }

  /** A signal from a full window of bars is a CALL or a PUT at the close of the newest raw bar. */
  lemma FullWindowSignalIsTradable(pair: string, raw: seq<RawBar>, threshold: real)
    requires |raw| >= WindowSize
    ensures AnalyzeSinglePair(pair, Some(raw), threshold).Some? ==>
              && AnalyzeSinglePair(pair, Some(raw), threshold).value.direction in {Call, Put}
              && AnalyzeSinglePair(pair, Some(raw), threshold).value.price == ToCandle(raw[|raw| - 1]).value.close
  {
    var w := ConvertWindow(Some(raw), WindowSize);
    if w.Some? {
      var cs := w.value;
      assert |cs| == WindowSize;
      assert ToCandle(raw[|raw| - |cs| + (|cs| - 1)]) == Some(cs[|cs| - 1]);
    }
  }

  /**
    `analyze_reversal` of the fixed bot: nothing for fewer than four candles;
    otherwise the opposite direction at the last close exactly when every
    candle moved the same, non-neutral way.
   */
  function AnalyzeReversal(cs: seq<Candle>): (r: Option<Reversal>)
    ensures |cs| < WindowSize ==> r.None?
    ensures r.Some? <==> ReversalPattern(cs)
    ensures r.Some? ==> r.value.price == Last(cs).close
    ensures r.Some? ==> r.value.direction in {Call, Put} && r.value.direction != Classify(Last(cs))
  {
    if |cs| < WindowSize then None
    else
      if Uniform(cs) && Classify(cs[0]) != Neutral then
        Some(Reversal(Opposite(Classify(cs[0])), Last(cs).close))
      else None
  }

  /** The two detectors agree on the reversal branch: whenever the fixed bot sees
      a reversal, the main bot's scorer reports it with the sentinel score. */
  lemma DetectorsAgreeOnReversal(cs: seq<Candle>)
    requires AnalyzeReversal(cs).Some?
    ensures ScorePair(cs) ==
            Score(ReversalScore, AnalyzeReversal(cs).value.direction, AnalyzeReversal(cs).value.price)
  {
  }

  /** Any neutral candle, or two candles moving in different directions, rule out a reversal. */
  lemma MixedWindowHasNoReversal(cs: seq<Candle>, i: nat, j: nat)
    requires i < |cs| && j < |cs|
    requires Classify(cs[i]) != Classify(cs[j]) || Classify(cs[i]) == Neutral
    ensures AnalyzeReversal(cs).None?
  {
  }

  /** A worked window: four rising bars predict PUT at 1.4. */
  lemma RisingWindowExample()
    ensures AnalyzeReversal([Candle(1.0, 1.2, 0.9, 1.1, 0), Candle(1.1, 1.3, 1.0, 1.2, 60),
                             Candle(1.2, 1.4, 1.1, 1.3, 120), Candle(1.3, 1.5, 1.2, 1.4, 180)])
            == Some(Reversal(Put, 1.4))
  {
    var cs := [Candle(1.0, 1.2, 0.9, 1.1, 0), Candle(1.1, 1.3, 1.0, 1.2, 60),
               Candle(1.2, 1.4, 1.1, 1.3, 120), Candle(1.3, 1.5, 1.2, 1.4, 180)];
    assert forall i :: 0 <= i < |cs| ==> Classify(cs[i]) == Call;
  }
}

=== FILE: evaluation.dfy ===
/**
  Outcome evaluation. The main bot checks one trade per phase
  (`check_trade_result`) and runs an initial phase and at most one martingale
  phase (`evaluate_signal_result`), keeping a win/loss tally and a stake; the
  fixed bot has a simpler two-candle evaluator (`evaluate_result`).

  Waiting, clocks and fetches are inputs: each evaluation receives the entry
  timestamps `time.time()` would have produced and the bar lists each fetch
  would have returned, and records its waits and notifications as a trace.
 */
module Evaluation {
  import opened Wrappers
  import opened Candles

  /** Bars fetched by `check_trade_result`. */
  const CheckWindow := 2

  /** A candle matches an entry when its timestamp lies within this many seconds. */
  const MatchTolerance := 60

  /** Seconds waited before each phase is checked (one bar plus a 5 s margin). */
  const PhaseWait := 65

  /** Seconds the fixed bot waits before each of its two checks. */
  const FixedWait := 60

  datatype TradeResult = Win | Loss

  /** The main bot's binary-option rule: CALL wins on a rise, every other
      direction is treated as PUT and wins on a fall; an unchanged bar loses. */
  predicate WinsMain(d: Direction, c: Candle)
  {
    if d == Call then c.close > c.open else c.close < c.open
  }

  function Distance(a: int, b: int): nat
  {
    if a <= b then b - a else a - b
  }

  predicate Matches(c: Candle, entry: int)
  {
    Distance(c.timestamp, entry) <= MatchTolerance
  }

  /** Index of the first candle whose timestamp is within the tolerance of `entry`. */
  function FirstMatch(cs: seq<Candle>, entry: int): (r: Option<nat>)
    ensures r.Some? ==> r.value < |cs| && Matches(cs[r.value], entry)
    ensures r.Some? ==> forall j :: 0 <= j < r.value ==> !Matches(cs[j], entry)
    ensures r.None? ==> forall j :: 0 <= j < |cs| ==> !Matches(cs[j], entry)
  {
    if |cs| == 0 then None
    else if Matches(cs[0], entry) then Some(0)
    else
      match FirstMatch(cs[1..], entry)
      case None => None
      case Some(k) => Some(k + 1)
  }

  /** The candle a trade is judged on: the first match, else the most recent bar. */
  function TradeCandle(cs: seq<Candle>, entry: int): Candle
    requires |cs| > 0
  {
    match FirstMatch(cs, entry)
    case Some(k) => cs[k]
    case None => cs[|cs| - 1]
  }

  /**
    `check_trade_result`: a failed or empty fetch is a loss; otherwise the
    trade candle is chosen by timestamp and judged by the binary-option rule.
   */
  function CheckTradeResult(d: Direction, entry: int, fetched: Option<seq<RawBar>>): (r: TradeResult)
    ensures ConvertWindow(fetched, CheckWindow).None? ==> r == Loss
    ensures ConvertWindow(fetched, CheckWindow).Some? ==>
              var cs := ConvertWindow(fetched, CheckWindow).value;
              var c := TradeCandle(cs, entry);
              && (d == Call ==> (r == Win <==> c.close > c.open))
              && (d != Call ==> (r == Win <==> c.close < c.open))
              && (c.close == c.open ==> r == Loss)
  {
    match ConvertWindow(fetched, CheckWindow)
    case None => Loss
    case Some(cs) => if WinsMain(d, TradeCandle(cs, entry)) then Win else Loss
  }

  /** The candle judged is the first one within 60 s of the entry, or else the last one. */
  lemma TradeCandleChoice(cs: seq<Candle>, entry: int)
    requires |cs| > 0
    ensures (exists k :: 0 <= k < |cs| && Matches(cs[k], entry)) ==>
              exists k :: 0 <= k < |cs| && TradeCandle(cs, entry) == cs[k] && Matches(cs[k], entry) &&
                forall j :: 0 <= j < k ==> !Matches(cs[j], entry)
    ensures (forall k :: 0 <= k < |cs| ==> !Matches(cs[k], entry)) ==> TradeCandle(cs, entry) == cs[|cs| - 1]
  {
  }

  /** The main bot's mutable evaluation state (`win_count`, `loss_count`,
      `current_stake`, `in_martingale_sequence`). */
  datatype BotState = BotState(winCount: nat, lossCount: nat, currentStake: real, inMartingale: bool)

  /** Configuration fixed at start-up. */
  datatype Config = Config(baseStake: real, martingaleFactor: real)

  /** The main bot's configuration: base stake 1.0, martingale factor 2.0. */
  const DefaultConfig := Config(1.0, 2.0)

  /** The state a fresh bot starts in. */
  const InitialState := BotState(0, 0, 1.0, false)

  /** Outcome of a whole sequence: "WIN", "MTG WIN" or "LOSS". */
  datatype SequenceResult = InitialWin | MtgWin | SequenceLoss

  datatype Phase = Initial | Martingale

  /** What an evaluation does, in order. A check records the stake and the
      in-sequence flag in force while it runs; a result notification records
      the tally it reports. */
  datatype Event =
    | Wait(seconds: nat)
    | Check(phase: Phase, entry: int, stake: real, inSequence: bool, outcome: TradeResult)
    | NotifyMtg(stake: real)
    | NotifyResult(result: SequenceResult, wins: nat, losses: nat)

  datatype SequenceRun = SequenceRun(result: SequenceResult, state: BotState, trace: seq<Event>)

  /** Number of trade checks in a trace. */
  function CheckCount(t: seq<Event>): nat
  {
    if |t| == 0 then 0 else CheckCount(t[..|t| - 1]) + (if t[|t| - 1].Check? then 1 else 0)
  }

  lemma CheckCountAppend(t: seq<Event>, e: Event)
    ensures CheckCount(t + [e]) == CheckCount(t) + (if e.Check? then 1 else 0)
  {
  }

  /** Counts checks in a trace built as `t` followed by three more events. */
  lemma CheckCountOfThree(t: seq<Event>, a: Event, b: Event, c: Event)
    ensures CheckCount(t + [a, b, c]) ==
            CheckCount(t) + (if a.Check? then 1 else 0) + (if b.Check? then 1 else 0) + (if c.Check? then 1 else 0)
  {
    CheckCountAppend(t, a);
    CheckCountAppend(t + [a], b);
    CheckCountAppend(t + [a] + [b], c);
    assert t + [a] + [b] + [c] == t + [a, b, c];
  }

  /**
    The martingale state machine of `evaluate_signal_result`, driven by the
    outcomes of its trade checks: `first` is the initial check and `second`
    the check the martingale phase would make, consulted only after a loss.
    Exactly one tally counter grows, and the stake and in-sequence flag are
    back at rest on exit.
   */
  function RunPhases(s: BotState, cfg: Config, entry1: int, first: TradeResult,
                     entry2: int, second: TradeResult): (r: SequenceRun)
    ensures r.result == InitialWin <==> first == Win
    ensures r.result == MtgWin <==> first == Loss && second == Win
    ensures r.result == SequenceLoss <==> first == Loss && second == Loss
    ensures r.state.winCount + r.state.lossCount == s.winCount + s.lossCount + 1
    ensures r.state.winCount == s.winCount + (if r.result == SequenceLoss then 0 else 1)
    ensures r.state.currentStake == cfg.baseStake && !r.state.inMartingale
    ensures |r.trace| > 0 && r.trace[|r.trace| - 1] == NotifyResult(r.result, r.state.winCount, r.state.lossCount)
  {
    var s1 := s.(currentStake := cfg.baseStake, inMartingale := true);
    var check1 := Check(Initial, entry1, s1.currentStake, s1.inMartingale, first);
    match first
    case Win =>
      var s2 := s1.(winCount := s1.winCount + 1, inMartingale := false, currentStake := cfg.baseStake);
      SequenceRun(InitialWin, s2, [Wait(PhaseWait), check1, NotifyResult(InitialWin, s2.winCount, s2.lossCount)])
    case Loss =>
      var s2 := s1.(currentStake := cfg.baseStake * cfg.martingaleFactor);
      var check2 := Check(Martingale, entry2, s2.currentStake, s2.inMartingale, second);
      var s3 := if second == Win then s2.(winCount := s2.winCount + 1) else s2.(lossCount := s2.lossCount + 1);
      var result := match second case Win => MtgWin case Loss => SequenceLoss;
      var s4 := s3.(inMartingale := false, currentStake := cfg.baseStake);
      SequenceRun(result, s4, [Wait(PhaseWait), check1, NotifyMtg(s2.currentStake),
                              Wait(PhaseWait), check2, NotifyResult(result, s4.winCount, s4.lossCount)])
  }

  /**
    The retry bound and stake discipline of an evaluation: one trade check
    after an initial win and two otherwise; the martingale announcement only
    on the loss branch, at `base * factor`; every check runs inside the
    sequence, after a bar-long wait; the first check is the initial phase's,
    at the base stake, and after a loss the second is the martingale
    phase's, at `base * factor`.
   */
  lemma EvaluationTrace(s: BotState, cfg: Config, entry1: int, first: TradeResult, entry2: int, second: TradeResult)
    ensures var r := RunPhases(s, cfg, entry1, first, entry2, second);
            CheckCount(r.trace) == (if r.result == InitialWin then 1 else 2)
    ensures var r := RunPhases(s, cfg, entry1, first, entry2, second);
            (exists i :: 0 <= i < |r.trace| && r.trace[i].NotifyMtg?) <==> r.result != InitialWin
    ensures var r := RunPhases(s, cfg, entry1, first, entry2, second);
            forall i :: 0 <= i < |r.trace| && r.trace[i].NotifyMtg? ==>
              r.trace[i].stake == cfg.baseStake * cfg.martingaleFactor
    ensures var r := RunPhases(s, cfg, entry1, first, entry2, second);
            forall i :: 0 <= i < |r.trace| && r.trace[i].Check? ==>
              && r.trace[i].inSequence
              && r.trace[i].stake == (if r.trace[i].phase == Martingale then cfg.baseStake * cfg.martingaleFactor
                                      else cfg.baseStake)
              && 0 < i && r.trace[i - 1] == Wait(PhaseWait)
    ensures var r := RunPhases(s, cfg, entry1, first, entry2, second);
            && |r.trace| == (if r.result == InitialWin then 3 else 6)
            && r.trace[1] == Check(Initial, entry1, cfg.baseStake, true, first)
            && (r.result != InitialWin ==>
                  r.trace[4] == Check(Martingale, entry2, cfg.baseStake * cfg.martingaleFactor, true, second))
  {
    var r := RunPhases(s, cfg, entry1, first, entry2, second);
    var t := r.trace;
    CheckCountOfThree([], t[0], t[1], t[2]);
    assert [] + [t[0], t[1], t[2]] == t[..3];
    if r.result == InitialWin {
      assert t == t[..3];
    } else {
      CheckCountOfThree(t[..3], t[3], t[4], t[5]);
      assert t[..3] + [t[3], t[4], t[5]] == t;
      assert t[2].NotifyMtg?;
    }
  }

  /**
    `evaluate_signal_result`: the state machine above with each phase's
    outcome decided by `check_trade_result` on that phase's fetch. The
    result is WIN exactly when the initial check wins, MTG WIN exactly when
    it loses and the martingale check wins, and LOSS otherwise.
   */
  function EvaluateSignalResult(s: BotState, cfg: Config, d: Direction,
                                entry1: int, fetch1: Option<seq<RawBar>>,
                                entry2: int, fetch2: Option<seq<RawBar>>): (r: SequenceRun)
    ensures r.result == InitialWin <==> CheckTradeResult(d, entry1, fetch1) == Win
    ensures r.result == MtgWin <==>
              CheckTradeResult(d, entry1, fetch1) == Loss && CheckTradeResult(d, entry2, fetch2) == Win
    ensures r.result == SequenceLoss <==>
              CheckTradeResult(d, entry1, fetch1) == Loss && CheckTradeResult(d, entry2, fetch2) == Loss
    ensures r.state.winCount + r.state.lossCount == s.winCount + s.lossCount + 1
    ensures r.state.winCount == s.winCount + (if r.result == SequenceLoss then 0 else 1)
    ensures r.state.currentStake == cfg.baseStake && !r.state.inMartingale
  {
    RunPhases(s, cfg, entry1, CheckTradeResult(d, entry1, fetch1), entry2, CheckTradeResult(d, entry2, fetch2))
  }

  /** A CALL on a bar that rose from 1.40 to 1.45 wins at once: no martingale phase. */
  lemma InitialWinExample(s: BotState, entry1: int, entry2: int, fetch2: Option<seq<RawBar>>)
    ensures var r := EvaluateSignalResult(s, DefaultConfig, Call,
                                           entry1, Some([RawBar(Num(1.40), Num(1.46), Num(1.39), Num(1.45), Num(entry1 as real))]),
                                           entry2, fetch2);
            && r.result == InitialWin
            && r.state == BotState(s.winCount + 1, s.lossCount, 1.0, false)
            && CheckCount(r.trace) == 1
  {
    var raw := [RawBar(Num(1.40), Num(1.46), Num(1.39), Num(1.45), Num(entry1 as real))];
    var cs := ConvertWindow(Some(raw), CheckWindow).value;
    assert cs[0] == Candle(1.40, 1.46, 1.39, 1.45, entry1);
    assert TradeCandle(cs, entry1) == cs[0];
    EvaluationTrace(s, DefaultConfig, entry1, Win, entry2, CheckTradeResult(Call, entry2, fetch2));
  }

  /** A PUT on a rising bar loses, the stake doubles, and a falling second bar wins the martingale. */
  lemma MartingaleWinExample(s: BotState, entry1: int, entry2: int)
    ensures var r := EvaluateSignalResult(s, DefaultConfig, Put,
                                           entry1, Some([RawBar(Num(1.40), Num(1.46), Num(1.39), Num(1.45), Num(entry1 as real))]),
                                           entry2, Some([RawBar(Num(1.50), Num(1.51), Num(1.44), Num(1.45), Num(entry2 as real))]));
            && r.result == MtgWin
            && r.state == BotState(s.winCount + 1, s.lossCount, 1.0, false)
            && r.trace[2] == NotifyMtg(2.0)
            && r.trace[4].stake == 2.0
  {
    var raw1 := [RawBar(Num(1.40), Num(1.46), Num(1.39), Num(1.45), Num(entry1 as real))];
    var raw2 := [RawBar(Num(1.50), Num(1.51), Num(1.44), Num(1.45), Num(entry2 as real))];
    var cs1 := ConvertWindow(Some(raw1), CheckWindow).value;
    var cs2 := ConvertWindow(Some(raw2), CheckWindow).value;
    assert cs1[0] == Candle(1.40, 1.46, 1.39, 1.45, entry1);
    assert cs2[0] == Candle(1.50, 1.51, 1.44, 1.45, entry2);
    assert TradeCandle(cs1, entry1) == cs1[0];
    assert TradeCandle(cs2, entry2) == cs2[0];
  }

  /** Two failed fetches lose both phases: one loss is tallied and the stake is back at base. */
  lemma DoubleLossExample(s: BotState, d: Direction, entry1: int, entry2: int)
    ensures var r := EvaluateSignalResult(s, DefaultConfig, d, entry1, None, entry2, Some([]));
            && r.result == SequenceLoss
            && r.state == BotState(s.winCount, s.lossCount + 1, 1.0, false)
  {
  }

  /** A fresh bot's first sequence leaves a tally of exactly one, a win unless
      both phases lost, at the base stake of 1.0 and out of sequence. */
  lemma FreshBotFirstSequence(d: Direction, entry1: int, fetch1: Option<seq<RawBar>>,
                              entry2: int, fetch2: Option<seq<RawBar>>)
    ensures var r := EvaluateSignalResult(InitialState, DefaultConfig, d, entry1, fetch1, entry2, fetch2);
            r.state == (if r.result == SequenceLoss then BotState(0, 1, 1.0, false) else BotState(1, 0, 1.0, false))
  {
  }

  // ---------------------------------------------------------------------------
  // The fixed bot's evaluator.

  /** Outcome of `evaluate_result`: "ERROR", "WIN", "MG WIN" or "LOSS". */
  datatype Status = Error | FixedWin | MgWin | FixedLoss

  /** The fixed bot's rule: only an explicit CALL on a rise or PUT on a fall wins. */
  predicate WinsFixed(d: Direction, c: Candle)
  {
    (d == Call && c.close > c.open) || (d == Put && c.close < c.open)
  }

  /** The two variants' win rules agree on CALL and PUT; they part on any other
      direction, which the main bot treats as PUT. */
  lemma WinRulesAgreeOnTradableDirections(d: Direction, c: Candle)
    ensures d in {Call, Put} ==> (WinsFixed(d, c) <==> WinsMain(d, c))
    ensures d !in {Call, Put} ==> !WinsFixed(d, c) && (WinsMain(d, c) <==> c.close < c.open)
  {
  }

  /** One step of the fixed evaluator: a pause or a one-bar fetch. */
  datatype Step = Sleep(seconds: nat) | FetchBar

  datatype FixedEvaluation = FixedEvaluation(status: Status, steps: seq<Step>)

  /** The candle a one-bar fetch yields, if any. */
  function FetchedBar(fetched: Option<seq<RawBar>>): (r: Option<Candle>)
    ensures r.Some? ==> fetched.Some? && |fetched.value| > 0 && ToCandle(fetched.value[|fetched.value| - 1]) == r
    ensures fetched.Some? && |fetched.value| > 0 && Convertible(fetched.value[|fetched.value| - 1]) ==> r.Some?
    ensures fetched.None? || fetched == Some([]) ==> r.None?
  {
    match ConvertWindow(fetched, 1)
    case None => None
    case Some(cs) => Some(cs[0])
  }

  /**
    `evaluate_result`: wait a bar, fetch one bar; no bar is an error; a win
    ends it; otherwise wait another bar and fetch again, where no bar or a
    non-winning bar is a loss and a winning bar is a martingale win.
   */
  function EvaluateResult(d: Direction, fetch1: Option<seq<RawBar>>, fetch2: Option<seq<RawBar>>): (r: FixedEvaluation)
    ensures r.status == Error <==> FetchedBar(fetch1).None?
    ensures r.status == FixedWin <==> FetchedBar(fetch1).Some? && WinsFixed(d, FetchedBar(fetch1).value)
    ensures r.status == MgWin <==>
              && FetchedBar(fetch1).Some? && !WinsFixed(d, FetchedBar(fetch1).value)
              && FetchedBar(fetch2).Some? && WinsFixed(d, FetchedBar(fetch2).value)
    ensures r.status in {Error, FixedWin} ==> r.steps == [Sleep(FixedWait), FetchBar]
    ensures r.status in {MgWin, FixedLoss} ==> r.steps == [Sleep(FixedWait), FetchBar, Sleep(FixedWait), FetchBar]
  {
    match FetchedBar(fetch1)
    case None => FixedEvaluation(Error, [Sleep(FixedWait), FetchBar])
    case Some(c1) =>
      if WinsFixed(d, c1) then FixedEvaluation(FixedWin, [Sleep(FixedWait), FetchBar])
      else
        var steps := [Sleep(FixedWait), FetchBar, Sleep(FixedWait), FetchBar];
        match FetchedBar(fetch2)
        case None => FixedEvaluation(FixedLoss, steps)
        case Some(c2) => FixedEvaluation(if WinsFixed(d, c2) then MgWin else FixedLoss, steps)
  }

  /** Once the first bar is in and did not win, the result is decided by the
      second bar alone, and an unchanged second bar is a loss. */
  lemma SecondBarDecides(d: Direction, fetch1: Option<seq<RawBar>>, fetch2: Option<seq<RawBar>>)
    requires FetchedBar(fetch1).Some? && !WinsFixed(d, FetchedBar(fetch1).value)
    ensures FetchedBar(fetch2).None? ==> EvaluateResult(d, fetch1, fetch2).status == FixedLoss
    ensures FetchedBar(fetch2).Some? && FetchedBar(fetch2).value.close == FetchedBar(fetch2).value.open ==>
              EvaluateResult(d, fetch1, fetch2).status == FixedLoss
  {
  }
}

=== FILE: scan.dfy ===
/**
  One scan cycle of the fixed bot (`run`): the pairs are visited once, in
  list order; each pair's four-bar window is fetched, a pair without data is
  skipped at once, and a pair showing a reversal is announced and evaluated
  to completion before the next pair is looked at. Delivery of the signal
  message always reports success in the fixed bot, so every signal is
  evaluated.

  The fetches are inputs: `feeds[i]` holds what the three fetches for
  `pairs[i]` (window, first and second evaluation bar) would return.
 */
module Scan {
  import opened Wrappers
  import opened Candles
  import opened Detection
  import opened Evaluation

  /** The instruments the bot watches, in scan order. */
  const OtcPairs: seq<string> := [
    "AUDNZD_otc", "AXP_otc", "BA_otc", "BRLUSD_otc", "BTCUSD_otc",
    "CADCHF_otc", "EURNZD_otc", "FB_otc", "NZDCAD_otc", "NZDCHF_otc",
    "NZDJPY_otc", "PFE_otc", "UKBrent_otc", "USCrude_otc", "USDARS_otc",
    "USDBDT_otc", "USDCOP_otc", "USDDZD_otc", "USDEGP_otc", "USDIDR_otc",
    "USDINR_otc", "USDJPY_otc", "USDMXN_otc", "USDNGN_otc", "USDPHP_otc",
    "USDPKR_otc", "USDTRY_otc", "USDZAR_otc", "XAGUSD_otc", "XAUUSD_otc"
  ]

  /** Seconds paused after a pair that had data. */
  const PairPause := 1

  /** Seconds paused after a full cycle. */
  const CyclePause := 5

  /** What the fetches for one pair return during a cycle. */
  datatype PairFeed = PairFeed(window: Option<seq<RawBar>>, first: Option<seq<RawBar>>, second: Option<seq<RawBar>>)

  /** How a pair fared in one cycle. */
  datatype PairReport = NoData | NoPattern | Traded(direction: Direction, price: real, status: Status)

  /** What the cycle does, in order. */
  datatype CycleEvent =
    | FetchWindow(pair: string)
    | SendSignal(pair: string, direction: Direction, price: real)
    | Evaluate(pair: string, evaluation: FixedEvaluation)
    | SendResult(pair: string, status: Status)
    | Pause(seconds: nat)

  datatype PairScan = PairScan(report: PairReport, events: seq<CycleEvent>)

  datatype Cycle = Cycle(reports: seq<PairReport>, trace: seq<CycleEvent>)

  /** Pairs whose window was fetched, in trace order. */
  function Visits(t: seq<CycleEvent>): seq<string>
  {
    if |t| == 0 then []
    else Visits(t[..|t| - 1]) + (if t[|t| - 1].FetchWindow? then [t[|t| - 1].pair] else [])
  }

  /** Pairs that were evaluated, in trace order. */
  function Evaluations(t: seq<CycleEvent>): seq<string>
  {
    if |t| == 0 then []
    else Evaluations(t[..|t| - 1]) + (if t[|t| - 1].Evaluate? then [t[|t| - 1].pair] else [])
  }

  /** Signals sent, as (pair, direction, price), in trace order. */
  function Signals(t: seq<CycleEvent>): seq<(string, Direction, real)>
  {
    if |t| == 0 then []
    else
      Signals(t[..|t| - 1]) +
      (if t[|t| - 1].SendSignal? then [(t[|t| - 1].pair, t[|t| - 1].direction, t[|t| - 1].price)] else [])
  }

  lemma {:induction false} VisitsAppend(a: seq<CycleEvent>, b: seq<CycleEvent>)
    ensures Visits(a + b) == Visits(a) + Visits(b)
    decreases |b|
  {
    if |b| == 0 {
      assert a + b == a;
    } else {
      var b' := b[..|b| - 1];
      assert (a + b)[..|a + b| - 1] == a + b';
      VisitsAppend(a, b');
    }
  }

  lemma {:induction false} EvaluationsAppend(a: seq<CycleEvent>, b: seq<CycleEvent>)
    ensures Evaluations(a + b) == Evaluations(a) + Evaluations(b)
    decreases |b|
  {
    if |b| == 0 {
      assert a + b == a;
    } else {
      var b' := b[..|b| - 1];
      assert (a + b)[..|a + b| - 1] == a + b';
      EvaluationsAppend(a, b');
    }
  }

  lemma {:induction false} SignalsAppend(a: seq<CycleEvent>, b: seq<CycleEvent>)
    ensures Signals(a + b) == Signals(a) + Signals(b)
    decreases |b|
  {
    if |b| == 0 {
      assert a + b == a;
    } else {
      var b' := b[..|b| - 1];
      assert (a + b)[..|a + b| - 1] == a + b';
      SignalsAppend(a, b');
    }
  }

  /**
    One iteration of the pair loop of `run`: fetch four bars; no data skips
    the pair with no pause; no reversal pauses and moves on; a reversal is
    sent, evaluated and its result sent, then the loop pauses.
   */
  function ScanPair(pair: string, feed: PairFeed): (r: PairScan)
    ensures r.report.NoData? <==> ConvertWindow(feed.window, WindowSize).None?
    ensures r.report.Traded? <==>
              ConvertWindow(feed.window, WindowSize).Some? &&
              AnalyzeReversal(ConvertWindow(feed.window, WindowSize).value).Some?
    ensures r.report.Traded? ==>
              var rev := AnalyzeReversal(ConvertWindow(feed.window, WindowSize).value).value;
              && r.report.direction == rev.direction
              && r.report.price == rev.price
              && r.report.status == EvaluateResult(rev.direction, feed.first, feed.second).status
    ensures r.report.NoData? ==> r.events == [FetchWindow(pair)]
    ensures !r.report.NoData? ==> |r.events| >= 2 && r.events[|r.events| - 1] == Pause(PairPause)
  {
    match ConvertWindow(feed.window, WindowSize)
    case None => PairScan(NoData, [FetchWindow(pair)])
    case Some(cs) =>
      match AnalyzeReversal(cs)
      case None =>
        PairScan(NoPattern, [FetchWindow(pair), Pause(PairPause)])
      case Some(rev) =>
        var ev := EvaluateResult(rev.direction, feed.first, feed.second);
        PairScan(Traded(rev.direction, rev.price, ev.status), TradedEvents(pair, rev.direction, rev.price, ev))
  }

  lemma ProjectOne(e: CycleEvent)
    ensures Visits([e]) == (if e.FetchWindow? then [e.pair] else [])
    ensures Evaluations([e]) == (if e.Evaluate? then [e.pair] else [])
    ensures Signals([e]) == (if e.SendSignal? then [(e.pair, e.direction, e.price)] else [])
  {
    assert [e][..0] == [];
  }

  lemma {:induction false} ProjectCons(e: CycleEvent, t: seq<CycleEvent>)
    ensures Visits([e] + t) == (if e.FetchWindow? then [e.pair] else []) + Visits(t)
    ensures Evaluations([e] + t) == (if e.Evaluate? then [e.pair] else []) + Evaluations(t)
    ensures Signals([e] + t) == (if e.SendSignal? then [(e.pair, e.direction, e.price)] else []) + Signals(t)
  {
    ProjectOne(e);
    VisitsAppend([e], t);
    EvaluationsAppend([e], t);
    SignalsAppend([e], t);
  }

  /** The events a traded pair produces, in order. */
  function TradedEvents(pair: string, d: Direction, price: real, ev: FixedEvaluation): seq<CycleEvent>
  {
    [FetchWindow(pair), SendSignal(pair, d, price), Evaluate(pair, ev), SendResult(pair, ev.status), Pause(PairPause)]
  }

  /** The traded events, split into the fetch-and-signal head and the rest. */
  lemma TradedEventsSplit(pair: string, d: Direction, price: real, ev: FixedEvaluation)
    ensures TradedEvents(pair, d, price, ev) ==
            [FetchWindow(pair)] + ([SendSignal(pair, d, price)] + ([Evaluate(pair, ev)] + ([SendResult(pair, ev.status)] + [Pause(PairPause)])))
  {
  }

  /** The events of a traded pair: one fetch of the pair, one signal and one evaluation of it. */
  lemma TradedEventsProjection(pair: string, d: Direction, price: real, ev: FixedEvaluation)
    ensures var t := TradedEvents(pair, d, price, ev);
            Visits(t) == [pair] && Evaluations(t) == [pair] && Signals(t) == [(pair, d, price)]
  {
    var e0, e1, e2, e3, e4 := FetchWindow(pair), SendSignal(pair, d, price), Evaluate(pair, ev),
                              SendResult(pair, ev.status), Pause(PairPause);
    TradedEventsSplit(pair, d, price, ev);
    ProjectOne(e4);
    ProjectCons(e3, [e4]);
    ProjectCons(e2, [e3] + [e4]);
    ProjectCons(e1, [e2] + ([e3] + [e4]));
    ProjectCons(e0, [e1] + ([e2] + ([e3] + [e4])));
  }

  lemma FetchThenPause(pair: string)
    ensures var t := [FetchWindow(pair)] + [Pause(PairPause)];
            Visits(t) == [pair] && Evaluations(t) == [] && Signals(t) == []
  {
    ProjectOne(Pause(PairPause));
    ProjectCons(FetchWindow(pair), [Pause(PairPause)]);
  }

  /** The events of a scan that did not trade: the fetch, then the pause if there was data. */
  lemma UntradedEvents(pair: string, feed: PairFeed)
    requires !ScanPair(pair, feed).report.Traded?
    ensures Visits(ScanPair(pair, feed).events) == [pair]
    ensures Evaluations(ScanPair(pair, feed).events) == []
    ensures Signals(ScanPair(pair, feed).events) == []
  {
    var r := ScanPair(pair, feed);
    if r.report.NoData? {
      ProjectOne(FetchWindow(pair));
    } else {
      assert r.events == [FetchWindow(pair)] + [Pause(PairPause)];
      FetchThenPause(pair);
    }
  }

  /** The events of a scan that traded, as a traded-events list. */
  lemma TradedScanEvents(pair: string, feed: PairFeed)
    requires ScanPair(pair, feed).report.Traded?
    ensures var r := ScanPair(pair, feed).report;
            Visits(ScanPair(pair, feed).events) == [pair] &&
            Evaluations(ScanPair(pair, feed).events) == [pair] &&
            Signals(ScanPair(pair, feed).events) == [(pair, r.direction, r.price)]
  {
    var rev := AnalyzeReversal(ConvertWindow(feed.window, WindowSize).value).value;
    var ev := EvaluateResult(rev.direction, feed.first, feed.second);
    TradedEventsProjection(pair, rev.direction, rev.price, ev);
  }

  lemma ScanPairVisits(pair: string, feed: PairFeed)
    ensures Visits(ScanPair(pair, feed).events) == [pair]
  {
    if ScanPair(pair, feed).report.Traded? { TradedScanEvents(pair, feed); } else { UntradedEvents(pair, feed); }
  }

  lemma ScanPairEvaluations(pair: string, feed: PairFeed)
    ensures Evaluations(ScanPair(pair, feed).events) == (if ScanPair(pair, feed).report.Traded? then [pair] else [])
  {
    if ScanPair(pair, feed).report.Traded? { TradedScanEvents(pair, feed); } else { UntradedEvents(pair, feed); }
  }

  lemma ScanPairSignals(pair: string, feed: PairFeed)
    ensures var r := ScanPair(pair, feed).report;
            Signals(ScanPair(pair, feed).events) == (if r.Traded? then [(pair, r.direction, r.price)] else [])
  {
    if ScanPair(pair, feed).report.Traded? { TradedScanEvents(pair, feed); } else { UntradedEvents(pair, feed); }
  }

  /** Scanning one pair fetches its window once, and sends a signal and
      evaluates it at most once: exactly when the pair traded, the signal
      carrying the reversal's direction and price. */
  lemma ScanPairProjections(pair: string, feed: PairFeed)
    ensures Visits(ScanPair(pair, feed).events) == [pair]
    ensures Evaluations(ScanPair(pair, feed).events) == (if ScanPair(pair, feed).report.Traded? then [pair] else [])
    ensures var r := ScanPair(pair, feed).report;
            Signals(ScanPair(pair, feed).events) == (if r.Traded? then [(pair, r.direction, r.price)] else [])
  {
    ScanPairVisits(pair, feed);
    ScanPairEvaluations(pair, feed);
    ScanPairSignals(pair, feed);
  }

  /** A traded pair first sends the reversal's signal, then runs the evaluator
      on that direction with the pair's two evaluation fetches. */
  lemma ScanPairSignalsThenEvaluates(pair: string, feed: PairFeed)
    ensures var r := ScanPair(pair, feed);
            r.report.Traded? ==>
              && r.events[1] == SendSignal(pair, r.report.direction, r.report.price)
              && r.events[2] == Evaluate(pair, EvaluateResult(r.report.direction, feed.first, feed.second))
  {
  }

  /** The events of scanning `pairs` in order, without the closing pause. */
  function Segments(pairs: seq<string>, feeds: seq<PairFeed>): seq<CycleEvent>
    requires |feeds| == |pairs|
  {
    if |pairs| == 0 then []
    else Segments(pairs[..|pairs| - 1], feeds[..|feeds| - 1]) + ScanPair(pairs[|pairs| - 1], feeds[|feeds| - 1]).events
  }

  /** The pairs, in list order, whose scan ends in an evaluation. */
  function TradedPairs(pairs: seq<string>, feeds: seq<PairFeed>): seq<string>
    requires |feeds| == |pairs|
  {
    if |pairs| == 0 then []
    else
      TradedPairs(pairs[..|pairs| - 1], feeds[..|feeds| - 1]) +
      (if ScanPair(pairs[|pairs| - 1], feeds[|feeds| - 1]).report.Traded? then [pairs[|pairs| - 1]] else [])
  }

  /** The signals the pairs' reversals call for, in list order. */
  function TradedSignals(pairs: seq<string>, feeds: seq<PairFeed>): seq<(string, Direction, real)>
    requires |feeds| == |pairs|
  {
    if |pairs| == 0 then []
    else
      var r := ScanPair(pairs[|pairs| - 1], feeds[|feeds| - 1]).report;
      TradedSignals(pairs[..|pairs| - 1], feeds[..|feeds| - 1]) +
      (if r.Traded? then [(pairs[|pairs| - 1], r.direction, r.price)] else [])
  }

  /** One pass of the `for pair in OTC_PAIRS` loop followed by the cycle pause. */
  function RunCycle(pairs: seq<string>, feeds: seq<PairFeed>): (r: Cycle)
    requires |feeds| == |pairs|
    ensures |r.reports| == |pairs|
    ensures forall i :: 0 <= i < |pairs| ==> r.reports[i] == ScanPair(pairs[i], feeds[i]).report
    ensures |r.trace| > 0 && r.trace[|r.trace| - 1] == Pause(CyclePause)
  {
    Cycle(seq(|pairs|, i requires 0 <= i < |pairs| => ScanPair(pairs[i], feeds[i]).report),
          Segments(pairs, feeds) + [Pause(CyclePause)])
  }

  lemma {:induction false} SegmentsVisits(pairs: seq<string>, feeds: seq<PairFeed>)
    requires |feeds| == |pairs|
    ensures Visits(Segments(pairs, feeds)) == pairs
  {
    if |pairs| > 0 {
      var n := |pairs|;
      SegmentsVisits(pairs[..n - 1], feeds[..n - 1]);
      ScanPairVisits(pairs[n - 1], feeds[n - 1]);
      VisitsAppend(Segments(pairs[..n - 1], feeds[..n - 1]), ScanPair(pairs[n - 1], feeds[n - 1]).events);
      assert pairs[..n - 1] + [pairs[n - 1]] == pairs;
    }
  }

  lemma {:induction false} SegmentsEvaluations(pairs: seq<string>, feeds: seq<PairFeed>)
    requires |feeds| == |pairs|
    ensures Evaluations(Segments(pairs, feeds)) == TradedPairs(pairs, feeds)
  {
    if |pairs| > 0 {
      var n := |pairs|;
      SegmentsEvaluations(pairs[..n - 1], feeds[..n - 1]);
      ScanPairEvaluations(pairs[n - 1], feeds[n - 1]);
      EvaluationsAppend(Segments(pairs[..n - 1], feeds[..n - 1]), ScanPair(pairs[n - 1], feeds[n - 1]).events);
    }
  }

  /** The pair loop fetches the pairs in list order and evaluates exactly the traded pairs, in order. */
  lemma SegmentsVisitInOrder(pairs: seq<string>, feeds: seq<PairFeed>)
    requires |feeds| == |pairs|
    ensures Visits(Segments(pairs, feeds)) == pairs
    ensures Evaluations(Segments(pairs, feeds)) == TradedPairs(pairs, feeds)
  {
    SegmentsVisits(pairs, feeds);
    SegmentsEvaluations(pairs, feeds);
  }

  /** The pair loop sends exactly the signals of the traded pairs, in list order. */
  lemma {:induction false} SegmentsSignalInOrder(pairs: seq<string>, feeds: seq<PairFeed>)
    requires |feeds| == |pairs|
    ensures Signals(Segments(pairs, feeds)) == TradedSignals(pairs, feeds)
  {
    if |pairs| > 0 {
      var n := |pairs|;
      var front := Segments(pairs[..n - 1], feeds[..n - 1]);
      var last := ScanPair(pairs[n - 1], feeds[n - 1]).events;
      SegmentsSignalInOrder(pairs[..n - 1], feeds[..n - 1]);
      ScanPairSignals(pairs[n - 1], feeds[n - 1]);
      SignalsAppend(front, last);
    }
  }

  /** Each pair's events, one list per pair. */
  function Scans(pairs: seq<string>, feeds: seq<PairFeed>): (r: seq<seq<CycleEvent>>)
    requires |feeds| == |pairs|
    ensures |r| == |pairs|
    ensures forall i :: 0 <= i < |pairs| ==> r[i] == ScanPair(pairs[i], feeds[i]).events
  {
    seq(|pairs|, i requires 0 <= i < |pairs| => ScanPair(pairs[i], feeds[i]).events)
  }

  /** The lists of `segs`, joined in order. */
  function Flatten(segs: seq<seq<CycleEvent>>): seq<CycleEvent>
  {
    if |segs| == 0 then [] else Flatten(segs[..|segs| - 1]) + segs[|segs| - 1]
  }

  lemma {:induction false} FlattenConcat(a: seq<seq<CycleEvent>>, b: seq<seq<CycleEvent>>)
    ensures Flatten(a + b) == Flatten(a) + Flatten(b)
    decreases |b|
  {
    if |b| == 0 {
      assert a + b == a;
    } else {
      var b' := b[..|b| - 1];
      assert (a + b)[..|a + b| - 1] == a + b' && (a + b)[|a + b| - 1] == b[|b| - 1];
      FlattenConcat(a, b');
      assert Flatten(a + b) == (Flatten(a) + Flatten(b')) + b[|b| - 1];
    }
  }

  /** The pair loop's events are the pairs' own events, joined in list order. */
  lemma {:induction false} SegmentsAreFlattenedScans(pairs: seq<string>, feeds: seq<PairFeed>)
    requires |feeds| == |pairs|
    ensures Segments(pairs, feeds) == Flatten(Scans(pairs, feeds))
  {
    if |pairs| > 0 {
      var n := |pairs|;
      SegmentsAreFlattenedScans(pairs[..n - 1], feeds[..n - 1]);
      assert Scans(pairs, feeds)[..n - 1] == Scans(pairs[..n - 1], feeds[..n - 1]);
    }
  }

  /**
    The cycle handles the pairs one at a time: its trace is the scan of the
    pairs before `i`, then the whole scan of `pairs[i]` (fetch, signal,
    evaluation, result, pause), then the scan of the pairs after it, then the
    cycle pause. So a pair's evaluation finishes before the next pair is fetched.
   */
  lemma {:induction false} CyclePairByPair(pairs: seq<string>, feeds: seq<PairFeed>, i: nat)
    requires |feeds| == |pairs| && i < |pairs|
    ensures RunCycle(pairs, feeds).trace ==
            Segments(pairs[..i], feeds[..i]) + ScanPair(pairs[i], feeds[i]).events +
            Segments(pairs[i + 1..], feeds[i + 1..]) + [Pause(CyclePause)]
    ensures Visits(Segments(pairs[..i], feeds[..i])) == pairs[..i]
    ensures Visits(Segments(pairs[i + 1..], feeds[i + 1..])) == pairs[i + 1..]
  {
    var all := Scans(pairs, feeds);
    var before, after := Scans(pairs[..i], feeds[..i]), Scans(pairs[i + 1..], feeds[i + 1..]);
    assert all == before + [all[i]] + after;
    FlattenConcat(before + [all[i]], after);
    FlattenConcat(before, [all[i]]);
    assert Flatten([all[i]]) == all[i] by {
      assert [all[i]][..0] == [];
    }
    SegmentsAreFlattenedScans(pairs, feeds);
    SegmentsAreFlattenedScans(pairs[..i], feeds[..i]);
    SegmentsAreFlattenedScans(pairs[i + 1..], feeds[i + 1..]);
    SegmentsVisitInOrder(pairs[..i], feeds[..i]);
    SegmentsVisitInOrder(pairs[i + 1..], feeds[i + 1..]);
  }

  /**
    A cycle fetches every pair exactly once, in list order, and evaluates
    exactly the pairs that showed a reversal, each once and in list order;
    each pair's whole scan sits between the earlier pairs' scans and the
    later ones'.
   */
  lemma CycleVisitsEveryPairOnce(pairs: seq<string>, feeds: seq<PairFeed>)
    requires |feeds| == |pairs|
    ensures Visits(RunCycle(pairs, feeds).trace) == pairs
    ensures Evaluations(RunCycle(pairs, feeds).trace) == TradedPairs(pairs, feeds)
    ensures Signals(RunCycle(pairs, feeds).trace) == TradedSignals(pairs, feeds)
    ensures forall i :: 0 <= i < |pairs| ==>
              RunCycle(pairs, feeds).trace ==
              Segments(pairs[..i], feeds[..i]) + ScanPair(pairs[i], feeds[i]).events +
              Segments(pairs[i + 1..], feeds[i + 1..]) + [Pause(CyclePause)]
  {
    forall i | 0 <= i < |pairs|
      ensures RunCycle(pairs, feeds).trace ==
              Segments(pairs[..i], feeds[..i]) + ScanPair(pairs[i], feeds[i]).events +
              Segments(pairs[i + 1..], feeds[i + 1..]) + [Pause(CyclePause)]
    {
      CyclePairByPair(pairs, feeds, i);
    }
    var segs := Segments(pairs, feeds);
    SegmentsVisitInOrder(pairs, feeds);
    VisitsAppend(segs, [Pause(CyclePause)]);
    EvaluationsAppend(segs, [Pause(CyclePause)]);
    SegmentsSignalInOrder(pairs, feeds);
    SignalsAppend(segs, [Pause(CyclePause)]);
    ProjectOne(Pause(CyclePause));
  }

  /** Every traded pair of the cycle is one whose window showed a reversal. */
  lemma {:induction false} TradedPairsShowReversals(pairs: seq<string>, feeds: seq<PairFeed>, p: string)
    requires |feeds| == |pairs|
    requires p in TradedPairs(pairs, feeds)
    ensures exists i :: 0 <= i < |pairs| && pairs[i] == p &&
              ConvertWindow(feeds[i].window, WindowSize).Some? &&
              AnalyzeReversal(ConvertWindow(feeds[i].window, WindowSize).value).Some?
  {
    var n := |pairs|;
    if p in TradedPairs(pairs[..n - 1], feeds[..n - 1]) {
      TradedPairsShowReversals(pairs[..n - 1], feeds[..n - 1], p);
      var i :| 0 <= i < n - 1 && pairs[..n - 1][i] == p &&
               ConvertWindow(feeds[..n - 1][i].window, WindowSize).Some? &&
               AnalyzeReversal(ConvertWindow(feeds[..n - 1][i].window, WindowSize).value).Some?;
      assert pairs[i] == p && feeds[i] == feeds[..n - 1][i];
    } else {
      assert pairs[n - 1] == p;
    }
  }

  /** The fixed bot's cycle over its thirty instruments. */
  function ScanOtcPairs(feeds: seq<PairFeed>): (r: Cycle)
    requires |feeds| == |OtcPairs|
    ensures |r.reports| == 30
    ensures Visits(r.trace) == OtcPairs
  {
    CycleVisitsEveryPairOnce(OtcPairs, feeds);
    RunCycle(OtcPairs, feeds)
  }
}
